=== FILE: README.md ===
# jgwhite-utils in Dafny

A verified model of the decision logic of `jgwhite-utils.js`, a small jQuery
utility file. The model keeps four pieces and drops the DOM plumbing around
them:

- **Key-event signature** (`KeySignature`, with `Decimal` for printing the key
  code). The signature of a key event is the active modifiers `shift`, `ctrl`,
  `alt` in that order, then the key code, all joined by `+`. The key code falls
  back to `which` when `keyCode` is falsy. A parser `Parse` is its proved
  inverse, so the encoding is injective.
- **Hotkey router** (`Hotkeys`). The key-down handler switches on the signature
  string. `shift+ctrl+71` toggles the grid of every `has-grid` element, and
  `shift+ctrl+alt+71` toggles the guide of every `has-guide` element. Any other
  signature does nothing.
- **Grid layout** (`GridLayout`). This covers parsing outcomes with their
  defaults, the "neither unit count nor unit size" error, and the derived unit
  count (`Math.floor` of a division) or unit size (an exact `real` division).
  It builds the vertical unit stripes and the horizontal baseline rulings.
  Division by zero follows JavaScript for unsigned zeros: `x/0` is an infinity
  and `0/0` is NaN. Negative zero is not modelled (see "Left out").
  A drawing loop that never stops is the outcome `Diverges`; it is not excluded
  by a precondition.
- **Overlay toggling** (`Overlay`, `GuideOverlay`, `Hosts`). Each element's
  overlay is `Absent`, `Hidden` or `Shown`. The first toggle with a valid
  configuration builds the overlay hidden and then flips it, so it ends up
  shown. Later toggles only flip it. An invalid configuration leaves the
  element `Absent` and logs one console error on every call. Collections are
  processed element by element and come back in the same order. The guide's
  load handler sets the host height to the larger of the host height and the
  image height.

DOM measurements are inputs to the model: the content width, the measured line
height, the height of the appended grid container, and the host and image
heights. Each `parseInt` outcome is an `Option<int>`.

The code and its doc comment disagree on the default gutter. The model follows
the code: an unparsable `data-grid-gutter` becomes 1, although the doc comment
says 0. Only "neither unit count nor unit size" is rejected. Supplying both is
accepted, and neither value is recomputed.

## Model

| member | source | states |
|---|---|---|
| `Decimal.NatToString` | jgwhite-utils.js:42-43 | the key code is printed as a canonical decimal string: at least one digit and no leading zero |
| `Decimal.StringToNatOfNatToString` | jgwhite-utils.js:42-43 | reading a printed key code back gives the same number |
| `Decimal.NatToStringOfStringToNat` | jgwhite-utils.js:42-43 | every canonical digit string is the printed form of its value |
| `Decimal.NatToStringInjective` | jgwhite-utils.js:42-43 | distinct key codes print differently |
| `KeySignature.EncodeShape` | jgwhite-utils.js:37-45 | the joined tokens are each present modifier followed by `+`, in the order shift, ctrl, alt, and then the decimal key code |
| `KeySignature.ParseEncode` | jgwhite-utils.js:37-45 | parsing a signature recovers the flags and the key code it was made from |
| `KeySignature.EncodeParse` | jgwhite-utils.js:37-45 | any string that parses is exactly the signature of the chord it parses to |
| `KeySignature.EncodeInjective` | jgwhite-utils.js:37-45 | two chords with the same signature are the same chord |
| `KeySignature.Signature` | jgwhite-utils.js:37-45 | `keyEventSignature`: the signature of an event always reads back as the event's chord (its three modifier flags and its effective key code) |
| `KeySignature.SameSignature` | jgwhite-utils.js:39-42 | two events share a signature exactly when they agree on the three modifiers and the effective key code, where `which` replaces a falsy `keyCode` |
| `KeySignature.SignatureExamples` | jgwhite-utils.js:31-32 | the documented `shift+alt+26` example, a bare `71`, and a zero `keyCode` falling back to `which` |
| `Hotkeys.HotkeysAreSignatures` | jgwhite-utils.js:197-198 | the two case labels are the signatures of Shift+Ctrl+G and Shift+Ctrl+Alt+G |
| `Hotkeys.Dispatch` | jgwhite-utils.js:196-199 | the `switch`: a signature selects the grid toggle if and only if it reads back as Shift+Ctrl+G, the guide toggle if and only if it reads back as Shift+Ctrl+Alt+G, and nothing otherwise |
| `Hotkeys.HotkeyLabelsParse` | jgwhite-utils.js:197-198 | each case label is the only string that reads back as its chord |
| `Hotkeys.DispatchOfEvent` | jgwhite-utils.js:196-199 | a key event selects the grid toggle if and only if Shift and Ctrl are held, Alt is not, and the key is 71; it selects the guide toggle if and only if all three are held and the key is 71; every other event selects nothing |
| `Hotkeys.KeyDown` | jgwhite-utils.js:195-200 | a key-down keeps the page's elements and their order; a grid hotkey fails to return exactly when some `has-grid` element without a grid has a unit loop or a baseline loop that never ends, and otherwise changes only the grids of `has-grid` elements, each by one toggle, and logs the unit-setting error once per `has-grid` element with no grid and no unit setting and nothing else; a guide hotkey always completes, changes only the guides of `has-guide` elements and logs the missing-URL error once per `has-guide` element with no guide and no usable URL and nothing else; any other key changes nothing and reports nothing |
| `Hotkeys.MarkedGridReports` | jgwhite-utils.js:78-93 | when the grid hotkey's pass completes, its console errors are exactly one unit-setting message per `has-grid` element with no grid and no unit setting |
| `Hotkeys.MarkedGuideReports` | jgwhite-utils.js:157-164 | the guide hotkey's pass always completes, and its console errors are exactly one missing-URL message per `has-guide` element with no guide and no usable URL |
| `Hotkeys.GridHotkeyHangsOnlyOnDivergence` | jgwhite-utils.js:113-140 | Shift+Ctrl+G fails to return if and only if some `has-grid` element has no grid yet and its unit loop or its baseline loop never ends |
| `Hotkeys.GridHotkeyTogglesMarkedGrids` | jgwhite-utils.js:197 | when Shift+Ctrl+G completes, it toggles the grid of every `has-grid` element, leaves all guides as they were, leaves unmarked elements untouched and logs one unit-setting error per `has-grid` element with no grid and no unit setting |
| `Hotkeys.GuideHotkeyTogglesMarkedGuides` | jgwhite-utils.js:198 | Shift+Ctrl+Alt+G always completes, toggles the guide of every `has-guide` element, leaves all grids as they were, leaves unmarked elements untouched and logs one missing-URL error per `has-guide` element with no guide and no usable URL |
| `Hotkeys.OtherKeysDoNothing` | jgwhite-utils.js:196-199 | any event that is not Shift+Ctrl+G with or without Alt leaves the page unchanged |
| `Overlay.Toggle` | jgwhite-utils.js:159-179 | with no overlay, a valid build ends shown, a rejected build stays absent with exactly its one report, and a hanging build never returns; an existing overlay keeps its content, reports nothing and flips between hidden and shown |
| `Overlay.ExistingOverlayOnlyFlips` | jgwhite-utils.js:80-82 | once an overlay exists, any number of further toggles never build a second overlay and never report, whatever the configuration; the overlay alternates with the parity of the number of calls |
| `Overlay.FirstBuildThenAlternates` | jgwhite-utils.js:142-145 | from no overlay with a valid configuration, the 1st, 3rd, 5th ... toggle leave it shown and the 2nd, 4th ... leave it hidden |
| `Overlay.InvalidConfigReportsEveryTime` | jgwhite-utils.js:91-94 | while the configuration stays invalid, the element keeps no overlay and every toggle reports its error once more |
| `GridLayout.Resolve` | jgwhite-utils.js:83-100 | fails, with the missing-units error, if and only if neither unit count nor unit size parses; padding-left defaults to 0, gutter to 1, baseline offset to 0; a given count or size is kept as given; whenever the count is positive the unit size is finite |
| `GridLayout.DerivedCountFits` | jgwhite-utils.js:98 | with only the unit size given and a positive pitch, the derived count `n` fits the width (`n*size + (n-1)*gutter <= width`) and `n+1` units would not |
| `GridLayout.DerivedSizeFills` | jgwhite-utils.js:99 | with only a positive unit count `n` given, the derived size fills the width exactly: `n*size + (n-1)*gutter == width` |
| `GridLayout.Tops` | jgwhite-utils.js:128-140 | for a positive line height the first top is the offset, consecutive tops differ by the line height, every top leaves room for a line above the container height, and the first top not drawn would not |
| `GridLayout.BaselineRule` | jgwhite-utils.js:128-140 | the baseline loop fails to stop if and only if the line height is not positive and the first test passes; otherwise its tops satisfy the fitting conditions |
| `GridLayout.RulingsFitIsTops` | jgwhite-utils.js:128-140 | for a positive line height the fitting conditions determine the tops: any sequence meeting them is the loop's output |
| `GridLayout.BuildGrid` | jgwhite-utils.js:83-140 | the missing-units failure occurs if and only if neither unit setting parses; a built grid has as many stripes as the unit loop runs (exactly `max(unitCount, 0)` when a count is given), each as wide as the resolved unit size, stripe `i` at `paddingLeft + i*(size+gutter)`, and baseline tops meeting the fitting conditions |
| `GridLayout.BuildGridDiverges` | jgwhite-utils.js:114-129 | a grid toggle never returns if and only if some unit setting parses and either the unit count is `+Infinity` (zero pitch with a positive `width + gutter`) or the baseline loop cannot get past its first test |
| `GridLayout.PlaceStripes` | jgwhite-utils.js:113-125 | the accumulating `left += unitSize + gutter` loop places exactly `count` stripes, stripe `i` at `paddingLeft + i*(unitSize+gutter)` and `unitSize` wide |
| `GridLayout.RuleBaselines` | jgwhite-utils.js:127-140 | the `while (top + baseline < height)` loop, on inputs where it stops, emits tops meeting the fitting conditions |
| `GridLayout.StripesIncrease` | jgwhite-utils.js:113-125 | with a positive pitch the stripes' left edges strictly increase |
| `GridLayout.GivenCountFillsWidth` | jgwhite-utils.js:99-124 | with a positive unit count given and the size derived, there are exactly that many stripes and the last one ends exactly at `paddingLeft + width` |
| `GridLayout.DerivedCountFitsWidth` | jgwhite-utils.js:98-124 | with a unit size given and the count derived, the last stripe ends within `paddingLeft + width`, and one more stripe would not |
| `GridLayout.GridExamples` | jgwhite-utils.js:96-125 | width 100, 4 units, gutter 0 gives 25px stripes at 0, 25, 50, 75; width 100, 20px units, gutter 0 gives 5 stripes |
| `GuideOverlay.BuildGuide` | jgwhite-utils.js:161-175 | a missing or empty guide URL gives exactly one "Specify data-guide-url" report and no image; otherwise an image with that source; building a guide never hangs |
| `GuideOverlay.HeightAfterLoad` | jgwhite-utils.js:173 | the height after load is at least the host height and at least the image height, and it is one of the two |
| `Hosts.GridBuild` | jgwhite-utils.js:91-94 | the grid build is rejected, with the one console message, exactly when neither unit setting parses; it hangs exactly when the layout diverges |
| `Hosts.ToggleGridOn` | jgwhite-utils.js:79-145 | the grid toggle on one element hangs only when it has no grid and the layout diverges; otherwise only that element's grid overlay changes, by one overlay toggle |
| `Hosts.ToggleGrid` | jgwhite-utils.js:77-149 | `toggleGrid` on a collection hangs exactly when some element has no grid and its layout diverges; otherwise it keeps the elements and their order and changes each element's grid by one overlay toggle and nothing else |
| `Hosts.ToggleGuide` | jgwhite-utils.js:156-182 | `toggleGuide` on a collection always completes, keeps the elements and their order and changes each element's guide by one overlay toggle and nothing else |
| `Hosts.ToggleGuideOn` | jgwhite-utils.js:157-179 | the guide toggle on one element always completes, and only that element's guide overlay changes, by one overlay toggle |
| `Hosts.EachHost` | jgwhite-utils.js:78-148 | a collection call hangs exactly when one element's step hangs; otherwise it returns the same number of elements, each the result of its own step |
| `Hosts.ToggleGridReports` | jgwhite-utils.js:77-149 | toggling grids on a collection changes nothing but grid overlays, reports the unit-setting error exactly once per element that has no grid and no unit setting, and leaves exactly those elements without a grid |
| `Hosts.ToggleGuideReports` | jgwhite-utils.js:156-182 | toggling guides on a collection always completes, changes nothing but guide overlays, reports the missing-URL error exactly once per element that has no guide and no usable URL and nothing else, and leaves without a guide exactly the elements that had none and have no usable URL |
| `Hosts.GuideLoaded` | jgwhite-utils.js:172-174 | after the guide image loads, the host never shrinks, is at least the image height, and nothing else about it changes; without a guide nothing happens |

## Left out

- `jgwhiteUtils.scope` (lines 22-26): it rebinds `this` with `$.proxy`. This is a JavaScript runtime matter with no decision logic to state.
- `ensureConsole` (lines 50-53) and the automatic calls at load time (lines 204-205): these only shim the environment and register the listener.
- `calculateLineHeight` (lines 60-66), `width()` and `height()`: these are DOM measurements. They are inputs, taken as integers. Fractional pixel measurements are not modelled.
- `$.fn.reverse` (lines 187-189): it wraps `Array.prototype.reverse` and has no logic of its own.
- `parseInt`: only its outcome is modelled, as `Option<int>`. `None` stands for NaN.
- CSS properties, class names, z-index, `find`/`appendTo`/`hide`/`toggle` plumbing and listener registration: these are DOM I/O. An overlay is represented only by its computed content.
- The asynchronous timing of the guide image's `load` event: only the height it sets is modelled (`Hosts.GuideLoaded`).
- Nested hosts: `find` searches descendants. A `has-grid` element inside another one would make the outer element find the inner grid. The model treats hosts as independent.
- Key events without a key code: when both `keyCode` and `which` are missing, line 42 pushes `undefined`, which `Array.prototype.join` renders as the empty string. The signature is then `shift+` (or `""` with no modifiers), and neither matches a hotkey. The model takes `which` as a number, and a `keyCode` of 0 stands for a missing one, so it does not produce these strings.
- `GridLayout.RuleBaselines`: it requires inputs on which the loop stops. The non-terminating case is modelled in `GridLayout.BaselineRule` and `GridLayout.BuildGrid` as `Diverges`.
- `GridLayout.BuildGrid`: when the unit count is 0 the derived unit size at line 99 is an infinity or NaN. No stripe uses it, and the model records only the stripes.
- `GridLayout.BuildGridDiverges`: the model has no negative zero. `parseInt("-0")` is `-0`, so a unit size of `"-0"` with a gutter of `"-0"` and width 100 makes line 98 divide by `-0`. That gives `-Infinity`, zero stripes and a completed toggle. The model reads both as `0`, gets `+Infinity`, and reports `Diverges`. Its "hangs if and only if" therefore holds only for inputs without a negative zero.
- Floating point: derived unit sizes and stripe offsets are exact rationals (`real`), so IEEE rounding is not modelled.

=== FILE: decimal.dfy ===
/**
 * Decimal rendering of natural numbers, as JavaScript prints a non-negative
 * integer when it is converted to a string, together with the inverse parse.
 */
module Decimal {

  predicate IsDigit(c: char) {
    '0' <= c <= '9'
  }

  predicate AllDigits(s: string) {
    forall i :: 0 <= i < |s| ==> IsDigit(s[i])
  }

  /** The form JavaScript prints: at least one digit and no leading zero. */
  predicate Canonical(s: string) {
    |s| >= 1 && AllDigits(s) && (|s| > 1 ==> s[0] != '0')
  }

  function DigitChar(d: nat): (c: char)
    requires d < 10
    ensures IsDigit(c)
    ensures DigitValue(c) == d
  {
    ('0' as int + d) as char
  }

  function DigitValue(c: char): (d: nat)
    requires IsDigit(c)
    ensures d < 10
  {
    (c as int - '0' as int) as nat
  }

  /** The decimal digits of `n`, most significant first. */
  function NatToString(n: nat): (s: string)
    ensures Canonical(s)
    decreases n
  {
    if n < 10 then [DigitChar(n)]
    else NatToString(n / 10) + [DigitChar(n % 10)]
  }

  /** The value of a string of decimal digits. */
  function StringToNat(s: string): (n: nat)
    requires AllDigits(s)
    decreases |s|
  {
    if |s| == 0 then 0
    else 10 * StringToNat(s[..|s| - 1]) + DigitValue(s[|s| - 1])
  }

  /** Reading back a rendered number gives the number. */
  lemma {:induction false} StringToNatOfNatToString(n: nat)
    ensures StringToNat(NatToString(n)) == n
    decreases n
  {
    var s := NatToString(n);
    if n >= 10 {
      StringToNatOfNatToString(n / 10);
      assert s[..|s| - 1] == NatToString(n / 10);
    }
  }

  /** A string of digits that does not start with zero has a positive value. */
  lemma {:induction false} LeadingNonZeroIsPositive(s: string)
    requires |s| >= 1 && AllDigits(s) && s[0] != '0'
    ensures StringToNat(s) >= 1
    decreases |s|
  {
    if |s| > 1 {
      LeadingNonZeroIsPositive(s[..|s| - 1]);
    }
  }

  /** Rendering the value of a canonical digit string gives the string back. */
  lemma {:induction false} NatToStringOfStringToNat(s: string)
    requires Canonical(s)
    ensures NatToString(StringToNat(s)) == s
    decreases |s|
  {
    var n := StringToNat(s);
    if |s| > 1 {
      var p := s[..|s| - 1];
      LeadingNonZeroIsPositive(p);
      NatToStringOfStringToNat(p);
      assert n / 10 == StringToNat(p) && n % 10 == DigitValue(s[|s| - 1]);
      assert DigitChar(n % 10) == s[|s| - 1];
      assert s == p + [s[|s| - 1]];
    } else {
      assert |s| == 1 && s[..|s| - 1] == [];
      assert StringToNat(s[..|s| - 1]) == 0;
      assert DigitChar(n) == s[0];
    }
  }

  /** Distinct numbers render to distinct strings. */
  lemma NatToStringInjective(m: nat, n: nat)
    requires NatToString(m) == NatToString(n)
    ensures m == n
  {
    StringToNatOfNatToString(m);
    StringToNatOfNatToString(n);
  }
}

=== FILE: grid_layout.dfy ===
/**
 * The layout computation of the grid overlay: attribute values with their
 * defaults, the derivation of unit count or unit size, the vertical unit
 * stripes and the horizontal baseline rulings. DOM measurements (content
 * width, line height, height of the appended grid container) are inputs.
 */
module GridLayout {
  import opened Wrappers

  /** A JavaScript number that may have left the reals: NaN or an infinity. */
  datatype Extended<T> = Finite(v: T) | NaN | PosInf | NegInf

  /** JavaScript `/`: division by zero gives an infinity, or NaN for 0/0. */
  function Divide(a: real, b: real): Extended<real> {
    if b != 0.0 then Finite(a / b)
    else if a > 0.0 then PosInf
    else if a < 0.0 then NegInf
    else NaN
  }

  /** `Math.floor`, which passes NaN and the infinities through. */
  function Floor(x: Extended<real>): Extended<int> {
    match x
    case Finite(v) => Finite(v.Floor)
    case NaN => NaN
    case PosInf => PosInf
    case NegInf => NegInf
  }

  /**
   * What one grid toggle reads from its host element. An attribute that
   * `parseInt` cannot read (missing, empty, not a number) is `None`.
   */
  datatype GridInput = GridInput(
    width: int,                   // rendered content width
    paddingLeft: Option<int>,     // the padding-left style
    gutter: Option<int>,          // data-grid-gutter
    unitCount: Option<int>,       // data-grid-unit-count
    unitSize: Option<int>,        // data-grid-unit-size
    baselineOffset: Option<int>,  // data-grid-baseline-offset
    lineHeight: int,              // measured line height: the baseline step
    gridHeight: int)              // measured height of the appended grid container

  /** The values the drawing loops use, after defaults and derivation. */
  datatype Settings = Settings(
    paddingLeft: int,
    gutter: int,
    unitCount: Extended<int>,
    unitSize: Extended<real>,
    baselineOffset: int)

  /** Why no grid comes out of a toggle. */
  datatype GridFailure =
    | MissingUnits  // neither unit count nor unit size parses: one console error
    | Diverges      // a drawing loop never terminates

  const DefaultPaddingLeft: int := 0
  /** The code defaults the gutter to 1, although its doc comment says 0. */
  const DefaultGutter: int := 1
  const DefaultBaselineOffset: int := 0

  /** Defaults, the one validation rule, and the derived unit count or unit size. */
  function Resolve(g: GridInput): (r: Result<Settings, GridFailure>)
    ensures r.Failure? <==> g.unitCount.None? && g.unitSize.None?
    ensures r.Failure? ==> r.error == MissingUnits
    ensures r.Success? ==> r.value.paddingLeft == g.paddingLeft.GetOr(DefaultPaddingLeft)
                           && r.value.gutter == g.gutter.GetOr(DefaultGutter)
                           && r.value.baselineOffset == g.baselineOffset.GetOr(DefaultBaselineOffset)
    ensures r.Success? && g.unitCount.Some? ==> r.value.unitCount == Finite(g.unitCount.value)
    ensures r.Success? && g.unitSize.Some? ==> r.value.unitSize == Finite(g.unitSize.value as real)
    ensures r.Success? && r.value.unitCount.Finite? && r.value.unitCount.v > 0 ==> r.value.unitSize.Finite?
  {
    if g.unitCount.None? && g.unitSize.None? then Failure(MissingUnits)
    else
      var gutter := g.gutter.GetOr(DefaultGutter);
      var count :=
        if g.unitCount.Some? then Finite(g.unitCount.value)
        else Floor(Divide((g.width + gutter) as real, (g.unitSize.value + gutter) as real));
      var size :=
        if g.unitSize.Some? then Finite(g.unitSize.value as real)
        else Divide((g.width - gutter * (g.unitCount.value - 1)) as real, g.unitCount.value as real);
      Success(Settings(g.paddingLeft.GetOr(DefaultPaddingLeft), gutter, count,
                       size, g.baselineOffset.GetOr(DefaultBaselineOffset)))
  }

  /** Number of passes of `for (i = 0; i < unitCount; i++)`; `None` when it never stops. */
  function StripeCount(c: Extended<int>): Option<nat> {
    match c
    case Finite(n) => Some(if n > 0 then n else 0)
    case NaN => Some(0)
    case NegInf => Some(0)
    case PosInf => None
  }

  /** One vertical unit stripe: its left edge and its width, in px. */
  datatype Stripe = Stripe(left: real, width: real)

  /** The stripes placed from `start`, each `size` wide, `gutter` apart. */
  function Stripes(start: int, size: real, gutter: int, n: nat): seq<Stripe> {
    seq(n, i requires 0 <= i < n => Stripe(start as real + i as real * (size + gutter as real), size))
  }

  /** Stripe `i` starts at `start + i*(size+gutter)` and is `size` wide. */
  predicate EvenlySpaced(stripes: seq<Stripe>, start: int, size: real, gutter: int) {
    forall i :: 0 <= i < |stripes| ==>
      stripes[i] == Stripe(start as real + i as real * (size + gutter as real), size)
  }

  /**
   * The baseline tops: the first is `offset`, each next one is `step` lower,
   * every top leaves room for a whole line above `height`, and the first top
   * not drawn would not.
   */
  predicate RulingsFit(tops: seq<int>, offset: int, step: int, height: int) {
    && (forall k :: 0 <= k < |tops| ==> tops[k] == offset + k * step)
    && (forall k :: 0 <= k < |tops| ==> tops[k] + step < height)
    && offset + |tops| * step + step >= height
  }

  /** Drawing one more line in front keeps the tops fitting. */
  lemma PrependRuling(rest: seq<int>, top: int, step: int, height: int)
    requires RulingsFit(rest, top + step, step, height)
    requires top + step < height
    ensures RulingsFit([top] + rest, top, step, height)
  {
    var r := [top] + rest;
    forall k | 1 <= k < |r|
      ensures r[k] == top + k * step
    {
      assert r[k] == rest[k - 1] == top + step + (k - 1) * step;
      assert (k - 1) * step == k * step - step;
    }
    assert |rest| * step + step == |r| * step;
  }

  /** The tops the baseline loop emits from `top` on, for a positive step. */
  function Tops(top: int, step: int, height: int): (r: seq<int>)
    requires step > 0
    ensures RulingsFit(r, top, step, height)
    decreases height - top
  {
    if top + step < height then
      var rest := Tops(top + step, step, height);
      PrependRuling(rest, top, step, height);
      [top] + rest
    else []
  }

  /**
   * The baseline loop `while (top + baseline < height)`: `None` when it never
   * stops, which happens exactly when its first test passes with a step that
   * does not move `top` down.
   */
  function BaselineRule(offset: int, step: int, height: int): (r: Option<seq<int>>)
    ensures r.None? <==> step <= 0 && offset + step < height
    ensures r.Some? ==> RulingsFit(r.value, offset, step, height)
  {
    if step > 0 then Some(Tops(offset, step, height))
    else if offset + step < height then None
    else Some([])
  }

  /** The finite unit size, or 0 where JavaScript has NaN or an infinity (no stripe uses it then). */
  function SizeOrZero(x: Extended<real>): real {
    if x.Finite? then x.v else 0.0
  }

  /** The closed-form row has the requested length, even spacing and stripe width. */
  lemma StripesShape(start: int, size: real, gutter: int, n: nat)
    ensures |Stripes(start, size, gutter, n)| == n
    ensures EvenlySpaced(Stripes(start, size, gutter, n), start, size, gutter)
    ensures forall i :: 0 <= i < n ==> Stripes(start, size, gutter, n)[i].width == size
  {}

  /** The overlay that a successful grid toggle draws. */
  datatype Grid = Grid(stripes: seq<Stripe>, baselineTops: seq<int>, lineHeight: int)

  /** The whole layout computation of one grid toggle on an element without a grid. */
  function BuildGrid(g: GridInput): (r: Result<Grid, GridFailure>)
    ensures r == Failure(MissingUnits) <==> g.unitCount.None? && g.unitSize.None?
    ensures r.Success? ==>
      var s := Resolve(g).value;
      && StripeCount(s.unitCount) == Some(|r.value.stripes|)
      && (g.unitCount.Some? ==>
            |r.value.stripes| == if g.unitCount.value > 0 then g.unitCount.value else 0)
      && (forall i :: 0 <= i < |r.value.stripes| ==> s.unitSize == Finite(r.value.stripes[i].width))
      && EvenlySpaced(r.value.stripes, s.paddingLeft, SizeOrZero(s.unitSize), s.gutter)
      && RulingsFit(r.value.baselineTops, s.baselineOffset, g.lineHeight, g.gridHeight)
      && r.value.lineHeight == g.lineHeight
  {
    match Resolve(g)
    case Failure(e) => Failure(e)
    case Success(s) =>
      var count := StripeCount(s.unitCount);
      var tops := BaselineRule(s.baselineOffset, g.lineHeight, g.gridHeight);
      if count.None? || tops.None? then Failure(Diverges)
      else
        var size := SizeOrZero(s.unitSize);
        var stripes := Stripes(s.paddingLeft, size, s.gutter, count.value);
        StripesShape(s.paddingLeft, size, s.gutter, count.value);
        assert count.value > 0 ==> s.unitSize.Finite?;
        Success(Grid(stripes, tops.value, g.lineHeight))
  }

  /**
   * The unit loop as the library writes it: `left` starts at the left padding
   * and grows by `unitSize + gutter` after each stripe.
   */
  method PlaceStripes(paddingLeft: int, unitSize: real, gutter: int, count: nat)
    returns (stripes: seq<Stripe>)
    ensures |stripes| == count
    ensures EvenlySpaced(stripes, paddingLeft, unitSize, gutter)
    ensures stripes == Stripes(paddingLeft, unitSize, gutter, count)
  {
    stripes := [];
    var left: real := paddingLeft as real;
    var i := 0;
    while i < count
      invariant 0 <= i <= count
      invariant |stripes| == i
      invariant left == paddingLeft as real + i as real * (unitSize + gutter as real)
      invariant EvenlySpaced(stripes, paddingLeft, unitSize, gutter)
    {
      stripes := stripes + [Stripe(left, unitSize)];
      left := left + (unitSize + gutter as real);
      i := i + 1;
    }
    EvenlySpacedUnique(stripes, Stripes(paddingLeft, unitSize, gutter, count), paddingLeft, unitSize, gutter);
  }

  /**
   * The baseline loop as the library writes it, on the inputs where it stops:
   * a positive step, or a first test that already fails.
   */
  method RuleBaselines(offset: int, step: int, height: int) returns (tops: seq<int>)
    requires step > 0 || offset + step >= height
    ensures RulingsFit(tops, offset, step, height)
    ensures step > 0 ==> tops == Tops(offset, step, height)
  {
    tops := [];
    if step <= 0 {
      return;
    }
    var top := offset;
    while top + step < height
      invariant top == offset + |tops| * step
      invariant forall k :: 0 <= k < |tops| ==> tops[k] == offset + k * step
      invariant forall k :: 0 <= k < |tops| ==> tops[k] + step < height
      decreases height - top
    {
      tops := tops + [top];
      top := top + step;
    }
    RulingsFitIsTops(tops, offset, step, height);
  }

  /** Scaling both sides of `a <= b` by a positive factor. */
  lemma MulRightMono(a: real, b: real, c: real)
    requires a <= b && c > 0.0
    ensures a * c <= b * c
  {}

  /** Scaling both sides of `a < b` by a positive factor. */
  lemma MulRightStrict(a: real, b: real, c: real)
    requires a < b && c > 0.0
    ensures a * c < b * c
  {}

  lemma QuotientTimesDivisor(a: real, d: real)
    requires d != 0.0
    ensures (a / d) * d == a
  {}

  /** Scaling the bracket `lo <= q < hi` by a positive factor. */
  lemma ScaleBracket(lo: real, q: real, hi: real, d: real, qd: real)
    requires lo <= q < hi && d > 0.0 && q * d == qd
    ensures lo * d <= qd < hi * d
  {
    MulRightMono(lo, q, d);
    MulRightStrict(q, hi, d);
  }

  lemma IntProductAsReal(x: int, y: int)
    ensures (x * y) as real == x as real * y as real
  {}

  /** The floor of an exact quotient by a positive divisor brackets the dividend. */
  lemma FloorQuotient(a: int, d: int)
    requires d > 0
    ensures var n := (a as real / d as real).Floor;
            n * d <= a < (n + 1) * d
  {
    var dr := d as real;
    var q := a as real / dr;
    var n := q.Floor;
    QuotientTimesDivisor(a as real, dr);
    ScaleBracket(n as real, q, (n + 1) as real, dr, a as real);
    IntProductAsReal(n, d);
    IntProductAsReal(n + 1, d);
    var below := n * d;
    var above := (n + 1) * d;
    assert below as real <= a as real;
    assert a as real < above as real;
  }

  /**
   * With only a unit size given and a positive pitch `unitSize + gutter`, the
   * derived count is the largest number of units (with the gutters between
   * them) that fits the width: that many fit, one more does not.
   */
  lemma DerivedCountFits(g: GridInput)
    requires g.unitCount.None? && g.unitSize.Some?
    requires g.unitSize.value + g.gutter.GetOr(DefaultGutter) > 0
    ensures Resolve(g).Success? && Resolve(g).value.unitCount.Finite?
    ensures var n := Resolve(g).value.unitCount.v;
            var u := g.unitSize.value;
            var gutter := g.gutter.GetOr(DefaultGutter);
            && n * u + (n - 1) * gutter <= g.width
            && (n + 1) * u + n * gutter > g.width
  {
    var gutter := g.gutter.GetOr(DefaultGutter);
    var u := g.unitSize.value;
    var pitch := u + gutter;
    var n := ((g.width + gutter) as real / pitch as real).Floor;
    assert Resolve(g).value.unitCount == Finite(n);
    FloorQuotient(g.width + gutter, pitch);
    assert n * pitch == n * u + n * gutter;
    assert (n + 1) * pitch == (n + 1) * u + (n + 1) * gutter;
  }

  /**
   * With only a positive unit count given, the derived unit size makes the
   * units and the gutters between them fill the width exactly.
   */
  lemma DerivedSizeFills(g: GridInput)
    requires g.unitSize.None? && g.unitCount.Some? && g.unitCount.value > 0
    ensures Resolve(g).Success? && Resolve(g).value.unitSize.Finite?
    ensures var n := g.unitCount.value;
            var s := Resolve(g).value.unitSize.v;
            var gutter := g.gutter.GetOr(DefaultGutter);
            n as real * s + (n - 1) as real * gutter as real == g.width as real
  {
    var n := g.unitCount.value;
    var gutter := g.gutter.GetOr(DefaultGutter);
    var a := (g.width - gutter * (n - 1)) as real;
    var s := a / n as real;
    assert Resolve(g).value.unitSize == Finite(s);
    assert n as real * s == a;
  }

  /** With a positive pitch the stripes run strictly left to right. */
  lemma StripesIncrease(stripes: seq<Stripe>, start: int, size: real, gutter: int)
    requires EvenlySpaced(stripes, start, size, gutter)
    requires size + gutter as real > 0.0
    ensures forall i, j :: 0 <= i < j < |stripes| ==> stripes[i].left < stripes[j].left
  {
    var p := size + gutter as real;
    forall i, j | 0 <= i < j < |stripes|
      ensures stripes[i].left < stripes[j].left
    {
      var ip := i as real * p;
      var jp := j as real * p;
      assert stripes[i].left == start as real + ip;
      assert stripes[j].left == start as real + jp;
      MulRightStrict(i as real, j as real, p);
      assert ip < jp;
    }
  }

  /**
   * For a positive step the fitting conditions pin the tops down: any
   * sequence that satisfies them is the one the baseline loop emits.
   */
  lemma {:induction false} RulingsFitIsTops(a: seq<int>, offset: int, step: int, height: int)
    requires step > 0
    requires RulingsFit(a, offset, step, height)
    ensures a == Tops(offset, step, height)
    decreases |a|
  {
    if |a| > 0 {
      var rest := a[1..];
      forall k | 0 <= k < |rest|
        ensures rest[k] == offset + step + k * step
      {
        assert rest[k] == a[k + 1] == offset + (k + 1) * step;
      }
      assert offset + step + |rest| * step + step == offset + |a| * step + step;
      RulingsFitIsTops(rest, offset + step, step, height);
      assert a[0] == offset + 0 * step;
      assert offset + step < height;
      assert Tops(offset, step, height) == [offset] + Tops(offset + step, step, height);
      assert a == [offset] + rest;
    }
  }

  /** Two evenly spaced rows of the same length and parameters are the same row. */
  lemma EvenlySpacedUnique(a: seq<Stripe>, b: seq<Stripe>, start: int, size: real, gutter: int)
    requires EvenlySpaced(a, start, size, gutter) && EvenlySpaced(b, start, size, gutter)
    requires |a| == |b|
    ensures a == b
  {}

  /**
   * With a positive unit count given and the size derived, the right edge of
   * the last stripe lands exactly on the right edge of the content box.
   */
  lemma GivenCountFillsWidth(g: GridInput)
    requires g.unitSize.None? && g.unitCount.Some? && g.unitCount.value > 0
    requires BuildGrid(g).Success?
    ensures var st := BuildGrid(g).value.stripes;
            var pl := g.paddingLeft.GetOr(DefaultPaddingLeft);
            |st| == g.unitCount.value
            && st[|st| - 1].left + st[|st| - 1].width == (pl + g.width) as real
  {
    DerivedSizeFills(g);
    var s := Resolve(g).value;
    var n := g.unitCount.value;
    var st := BuildGrid(g).value.stripes;
    var size := s.unitSize.v;
    assert st[n - 1].width == size;
    assert st[n - 1].left == s.paddingLeft as real + (n - 1) as real * (size + s.gutter as real);
    assert (n - 1) as real * (size + s.gutter as real) + size
           == n as real * size + (n - 1) as real * s.gutter as real;
  }

  /**
   * With a unit size given and the count derived (positive pitch), the last
   * stripe ends inside the content box, and one more stripe would not.
   */
  lemma DerivedCountFitsWidth(g: GridInput)
    requires g.unitCount.None? && g.unitSize.Some?
    requires g.unitSize.value + g.gutter.GetOr(DefaultGutter) > 0
    requires BuildGrid(g).Success? && |BuildGrid(g).value.stripes| > 0
    ensures var st := BuildGrid(g).value.stripes;
            var pl := g.paddingLeft.GetOr(DefaultPaddingLeft);
            var pitch := (g.unitSize.value + g.gutter.GetOr(DefaultGutter)) as real;
            var last := st[|st| - 1];
            && last.left + last.width <= (pl + g.width) as real
            && last.left + pitch + last.width > (pl + g.width) as real
  {
    DerivedCountFits(g);
    var s := Resolve(g).value;
    var st := BuildGrid(g).value.stripes;
    var n := |st|;
    var u := g.unitSize.value;
    assert s.unitCount == Finite(n);
    assert st[n - 1].width == u as real;
    assert st[n - 1].left == s.paddingLeft as real + (n - 1) as real * (u + s.gutter) as real;
    assert (n - 1) as real * (u + s.gutter) as real + u as real
           == (n * u + (n - 1) * s.gutter) as real;
  }

  /**
   * A toggle never returns exactly when the unit loop is unbounded (a unit
   * size whose pitch is zero against a positive `width + gutter`) or the
   * baseline loop cannot move past its first test.
   */
  lemma BuildGridDiverges(g: GridInput)
    ensures BuildGrid(g) == Failure(Diverges)
            <==> (g.unitCount.Some? || g.unitSize.Some?)
                 && ((g.unitCount.None? && g.unitSize.value + g.gutter.GetOr(DefaultGutter) == 0
                      && g.width + g.gutter.GetOr(DefaultGutter) > 0)
                     || (g.lineHeight <= 0
                         && g.baselineOffset.GetOr(DefaultBaselineOffset) + g.lineHeight < g.gridHeight))
  {
  }

  /** The worked examples: four units over 100px, and 20px units over 100px. */
  lemma GridExamples()
    ensures var g := GridInput(100, None, Some(0), Some(4), None, None, 20, 0);
            && BuildGrid(g).Success?
            && BuildGrid(g).value.stripes
               == [Stripe(0.0, 25.0), Stripe(25.0, 25.0), Stripe(50.0, 25.0), Stripe(75.0, 25.0)]
    ensures var g := GridInput(100, None, Some(0), None, Some(20), None, 20, 0);
            && BuildGrid(g).Success? && |BuildGrid(g).value.stripes| == 5
  {
    var g := GridInput(100, None, Some(0), Some(4), None, None, 20, 0);
    assert Resolve(g).value.unitSize == Finite(25.0);
    var h := GridInput(100, None, Some(0), None, Some(20), None, 20, 0);
    assert (100.0 / 20.0).Floor == 5;
  }
}

=== FILE: guide_overlay.dfy ===
/**
 * The guide overlay: one reference image placed over the host element. The
 * image URL comes from the `data-guide-url` attribute; once the image has
 * loaded, the host grows to at least the image's height.
 */
module GuideOverlay {
  import opened Wrappers
  import opened Overlay

  /** The guide image node, identified by the URL it loads. */
  datatype Guide = Guide(src: string)

  const MissingUrlMessage: string := "Specify data-guide-url"

  /** Building a guide: a missing or empty URL is falsy and aborts with one report. */
  function BuildGuide(url: Option<string>): (r: Build<Guide, Report>)
    ensures r.Rejected? <==> url.None? || url.value == ""
    ensures r.Rejected? ==> r.report == ConsoleError(MissingUrlMessage)
    ensures r.Built? ==> r.overlay.src == url.value
    ensures !r.Hangs?
  {
    if url.None? || url.value == "" then Rejected(ConsoleError(MissingUrlMessage))
    else Built(Guide(url.value))
  }

  /** The host height the load handler sets: the larger of the two heights. */
  function HeightAfterLoad(hostHeight: int, imageHeight: int): (h: int)
    ensures h >= hostHeight && h >= imageHeight
    ensures h == hostHeight || h == imageHeight
  {
    if hostHeight >= imageHeight then hostHeight else imageHeight
  }
}

=== FILE: hosts.dfy ===
/**
 * Host elements and the two toggle operations on collections of them. Each
 * element of a collection is handled on its own: one element's error does not
 * stop its siblings, and the collection comes back in the same order.
 */
module Hosts {
  import opened Wrappers
  import opened Overlay
  import opened GridLayout
  import opened GuideOverlay

  /**
   * A host element: its trigger classes, what a grid toggle and a guide
   * toggle would read from it, its rendered height and its two overlays.
   */
  datatype Host = Host(
    hasGrid: bool,
    hasGuide: bool,
    gridInput: GridInput,
    guideUrl: Option<string>,
    height: int,
    grid: State<Grid>,
    guide: State<Guide>)

  datatype HostStep = HostStep(host: Host, reports: seq<Report>) | HostHung

  datatype PageStep = PageStep(hosts: seq<Host>, reports: seq<Report>) | PageHung

  const GridConfigMessage: string :=
    "Specify either data-grid-unit-size or data-grid-unit-count, not both"

  /** The grid layout as an overlay build. */
  function GridBuild(g: GridInput): (r: Build<Grid, Report>)
    ensures r.Rejected? <==> g.unitCount.None? && g.unitSize.None?
    ensures r.Rejected? ==> r.report == ConsoleError(GridConfigMessage)
    ensures r.Built? ==> BuildGrid(g) == Success(r.overlay)
    ensures r.Hangs? <==> BuildGrid(g) == Failure(Diverges)
  {
    match BuildGrid(g)
    case Success(l) => Built(l)
    case Failure(MissingUnits) => Rejected(ConsoleError(GridConfigMessage))
    case Failure(Diverges) => Hangs
  }

  /** The grid toggle on one element; only its grid overlay can change. */
  function ToggleGridOn(h: Host): (r: HostStep)
    ensures r.HostHung? <==> h.grid.Absent? && BuildGrid(h.gridInput) == Failure(Diverges)
    ensures r.HostStep? ==> r.host == h.(grid := r.host.grid)
    ensures r.HostStep? <==> Toggle(h.grid, GridBuild(h.gridInput)).Step?
    ensures r.HostStep? ==> r.host.grid == Toggle(h.grid, GridBuild(h.gridInput)).state
                            && r.reports == Toggle(h.grid, GridBuild(h.gridInput)).reports
  {
    match Toggle(h.grid, GridBuild(h.gridInput))
    case Hung => HostHung
    case Step(s, rs) => HostStep(h.(grid := s), rs)
  }

  /** The guide toggle on one element; only its guide overlay can change. */
  function ToggleGuideOn(h: Host): (r: HostStep)
    ensures r.HostStep?
    ensures r.host == h.(guide := r.host.guide)
    ensures r.host.guide == Toggle(h.guide, BuildGuide(h.guideUrl)).state
    ensures r.reports == Toggle(h.guide, BuildGuide(h.guideUrl)).reports
  {
    match Toggle(h.guide, BuildGuide(h.guideUrl))
    case Hung => HostHung
    case Step(s, rs) => HostStep(h.(guide := s), rs)
  }

  /**
   * Applies a per-element step to every element in order, collecting the
   * reports; the whole call never returns if one element's step does not.
   */
  function EachHost(hosts: seq<Host>, f: Host -> HostStep): (r: PageStep)
    ensures r.PageHung? <==> exists i :: 0 <= i < |hosts| && f(hosts[i]).HostHung?
    ensures r.PageStep? ==> |r.hosts| == |hosts|
                            && forall i :: 0 <= i < |hosts| ==> r.hosts[i] == f(hosts[i]).host
    decreases |hosts|
  {
    if |hosts| == 0 then PageStep([], [])
    else
      match f(hosts[0])
      case HostHung => PageHung
      case HostStep(h, rs) =>
        match EachHost(hosts[1..], f)
        case PageHung => PageHung
        case PageStep(hs, rss) => PageStep([h] + hs, rs + rss)
  }

  /** `toggleGrid` on a collection. */
  function ToggleGrid(hosts: seq<Host>): (r: PageStep)
    ensures r.PageHung? <==> exists i :: 0 <= i < |hosts| && hosts[i].grid.Absent?
                                         && BuildGrid(hosts[i].gridInput) == Failure(Diverges)
    ensures r.PageStep? ==>
      && |r.hosts| == |hosts|
      && forall i :: 0 <= i < |hosts| ==>
           && r.hosts[i] == hosts[i].(grid := r.hosts[i].grid)
           && r.hosts[i].grid == Toggle(hosts[i].grid, GridBuild(hosts[i].gridInput)).state
  {
    EachHost(hosts, ToggleGridOn)
  }

  /** `toggleGuide` on a collection. */
  function ToggleGuide(hosts: seq<Host>): (r: PageStep)
    ensures r.PageStep?
    ensures |r.hosts| == |hosts|
    ensures forall i :: 0 <= i < |hosts| ==>
              && r.hosts[i] == hosts[i].(guide := r.hosts[i].guide)
              && r.hosts[i].guide == Toggle(hosts[i].guide, BuildGuide(hosts[i].guideUrl)).state
  {
    EachHost(hosts, ToggleGuideOn)
  }

  /** An element whose grid toggle reports: no grid yet and no unit setting. */
  predicate GridRejects(h: Host) {
    h.grid.Absent? && h.gridInput.unitCount.None? && h.gridInput.unitSize.None?
  }

  /** The number of elements of a collection whose grid toggle reports. */
  function GridRejections(hosts: seq<Host>): nat
    decreases |hosts|
  {
    if |hosts| == 0 then 0
    else (if GridRejects(hosts[0]) then 1 else 0) + GridRejections(hosts[1..])
  }

  /** An element whose guide toggle reports: no guide yet and a missing or empty URL. */
  predicate GuideRejects(h: Host) {
    h.guide.Absent? && (h.guideUrl.None? || h.guideUrl.value == "")
  }

  /** The number of elements of a collection whose guide toggle reports. */
  function GuideRejections(hosts: seq<Host>): nat
    decreases |hosts|
  {
    if |hosts| == 0 then 0
    else (if GuideRejects(hosts[0]) then 1 else 0) + GuideRejections(hosts[1..])
  }

  /**
   * The grid toggle returns the same collection in the same order, changes
   * nothing but grid overlays, and reports the configuration error exactly
   * once for each element that has no grid and no unit setting.
   */
  lemma {:induction false} ToggleGridReports(hosts: seq<Host>)
    requires ToggleGrid(hosts).PageStep?
    ensures var r := ToggleGrid(hosts);
            && |r.reports| == GridRejections(hosts)
            && (forall k :: 0 <= k < |r.reports| ==> r.reports[k] == ConsoleError(GridConfigMessage))
            && (forall i :: 0 <= i < |hosts| ==> r.hosts[i] == hosts[i].(grid := r.hosts[i].grid))
            && (forall i :: 0 <= i < |hosts| ==> (r.hosts[i].grid.Absent? <==> GridRejects(hosts[i])))
    decreases |hosts|
  {
    if |hosts| > 0 {
      ToggleGridReports(hosts[1..]);
    }
  }

  /**
   * The guide toggle never hangs, changes nothing but guide overlays, and
   * reports the missing-URL error exactly once for each element that has no
   * guide and no usable URL.
   */
  lemma {:induction false} ToggleGuideReports(hosts: seq<Host>)
    ensures var r := ToggleGuide(hosts);
            && r.PageStep?
            && |r.reports| == GuideRejections(hosts)
            && (forall k :: 0 <= k < |r.reports| ==> r.reports[k] == ConsoleError(MissingUrlMessage))
            && (forall i :: 0 <= i < |hosts| ==> r.hosts[i] == hosts[i].(guide := r.hosts[i].guide))
            && (forall i :: 0 <= i < |hosts| ==>
                  (r.hosts[i].guide.Absent? <==> GuideRejects(hosts[i])))
    decreases |hosts|
  {
    if |hosts| > 0 {
      ToggleGuideReports(hosts[1..]);
    }
  }

  /**
   * The guide image's load handler: the host grows to the image's height if
   * that is larger, never shrinks, and nothing else about it changes. Without
   * a guide there is no image and hence no load.
   */
  function GuideLoaded(h: Host, imageHeight: int): (r: Host)
    ensures r == h.(height := r.height)
    ensures r.height >= h.height
    ensures !h.guide.Absent? ==> r.height >= imageHeight
                                 && (r.height == h.height || r.height == imageHeight)
    ensures h.guide.Absent? ==> r == h
  {
    if h.guide.Absent? then h else h.(height := HeightAfterLoad(h.height, imageHeight))
  }
}

=== FILE: hotkeys.dfy ===
/**
 * The global key-down handler: it computes the event's signature and
 * dispatches on exact string equality. Shift+Ctrl+G toggles the grid of every
 * element with the `has-grid` class, Shift+Ctrl+Alt+G the guide of every
 * element with the `has-guide` class; every other signature does nothing.
 */
module Hotkeys {
  import opened Wrappers
  import opened Decimal
  import opened KeySignature
  import opened GridLayout
  import opened Overlay
  import opened GuideOverlay
  import opened Hosts

  datatype Action = GridToggle | GuideToggle | NoAction

  /** Key code of the letter G. */
  const KeyG: nat := 71

  const GridHotkey: string := "shift+ctrl+71"
  const GuideHotkey: string := "shift+ctrl+alt+71"

  /** Shift+Ctrl+G and Shift+Ctrl+Alt+G. */
  const GridChord: Chord := Chord(true, true, false, KeyG)
  const GuideChord: Chord := Chord(true, true, true, KeyG)

  /**
   * The `switch` on the signature string: a signature selects a toggle
   * exactly when it reads back as that toggle's chord.
   */
  function Dispatch(signature: string): (a: Action)
    ensures a == GridToggle <==> Parse(signature) == Some(GridChord)
    ensures a == GuideToggle <==> Parse(signature) == Some(GuideChord)
    ensures a == NoAction
            <==> Parse(signature) != Some(GridChord) && Parse(signature) != Some(GuideChord)
  {
    HotkeyLabelsParse(signature);
    if signature == GridHotkey then GridToggle
    else if signature == GuideHotkey then GuideToggle
    else NoAction
  }

  /** The two case labels are the signatures of Shift+Ctrl+G and Shift+Ctrl+Alt+G. */
  lemma HotkeysAreSignatures()
    ensures GridHotkey == Encode(Chord(true, true, false, KeyG))
    ensures GuideHotkey == Encode(Chord(true, true, true, KeyG))
  {
    assert NatToString(71) == "71" by {
      assert NatToString(7) == "7";
    }
    EncodeShape(Chord(true, true, false, KeyG));
    EncodeShape(Chord(true, true, true, KeyG));
  }

  /** The case labels are the only strings that read back as the two chords. */
  lemma HotkeyLabelsParse(s: string)
    ensures s == GridHotkey <==> Parse(s) == Some(GridChord)
    ensures s == GuideHotkey <==> Parse(s) == Some(GuideChord)
  {
    HotkeysAreSignatures();
    ParseEncode(GridChord);
    ParseEncode(GuideChord);
    if Parse(s) == Some(GridChord) {
      EncodeParse(s, GridChord);
    }
    if Parse(s) == Some(GuideChord) {
      EncodeParse(s, GuideChord);
    }
  }

  /**
   * A key event toggles grids exactly when Shift and Ctrl are held, Alt is
   * not, and the key is G; it toggles guides exactly when all three are held
   * and the key is G; any other event does nothing.
   */
  lemma DispatchOfEvent(e: KeyEvent)
    ensures Dispatch(Signature(e)) == GridToggle
            <==> e.shiftKey && e.ctrlKey && !e.altKey && KeyCodeOf(e) == KeyG
    ensures Dispatch(Signature(e)) == GuideToggle
            <==> e.shiftKey && e.ctrlKey && e.altKey && KeyCodeOf(e) == KeyG
    ensures Dispatch(Signature(e)) == NoAction
            <==> !(e.shiftKey && e.ctrlKey && KeyCodeOf(e) == KeyG)
  {
    HotkeysAreSignatures();
    var c := ChordOf(e);
    if Signature(e) == GridHotkey {
      EncodeInjective(c, Chord(true, true, false, KeyG));
    }
    if Signature(e) == GuideHotkey {
      EncodeInjective(c, Chord(true, true, true, KeyG));
    }
  }

  /** Leaves an element alone. */
  function Unchanged(h: Host): HostStep {
    HostStep(h, [])
  }

  /** The grid toggle on the elements with the `has-grid` class only. */
  function GridIfMarked(h: Host): HostStep {
    if h.hasGrid then ToggleGridOn(h) else Unchanged(h)
  }

  /** The guide toggle on the elements with the `has-guide` class only. */
  function GuideIfMarked(h: Host): HostStep {
    if h.hasGuide then ToggleGuideOn(h) else Unchanged(h)
  }

  /** The number of `has-grid` elements whose grid toggle reports. */
  function MarkedGridRejections(page: seq<Host>): nat
    decreases |page|
  {
    if |page| == 0 then 0
    else (if page[0].hasGrid && GridRejects(page[0]) then 1 else 0)
         + MarkedGridRejections(page[1..])
  }

  /** The number of `has-guide` elements whose guide toggle reports. */
  function MarkedGuideRejections(page: seq<Host>): nat
    decreases |page|
  {
    if |page| == 0 then 0
    else (if page[0].hasGuide && GuideRejects(page[0]) then 1 else 0)
         + MarkedGuideRejections(page[1..])
  }

  /**
   * When the grid hotkey's pass over the page completes, it has logged the
   * configuration error once for each `has-grid` element with no grid and
   * no unit setting, and nothing else.
   */
  lemma {:induction false} MarkedGridReports(page: seq<Host>)
    ensures var r := EachHost(page, GridIfMarked);
            r.PageStep? ==>
              && |r.reports| == MarkedGridRejections(page)
              && forall k :: 0 <= k < |r.reports| ==>
                   r.reports[k] == ConsoleError(GridConfigMessage)
    decreases |page|
  {
    if |page| > 0 {
      MarkedGridReports(page[1..]);
    }
  }

  /**
   * The guide hotkey's pass over the page always completes and logs the
   * missing-URL error once for each `has-guide` element with no guide and no
   * usable URL, and nothing else.
   */
  lemma {:induction false} MarkedGuideReports(page: seq<Host>)
    ensures var r := EachHost(page, GuideIfMarked);
            && r.PageStep?
            && |r.reports| == MarkedGuideRejections(page)
            && forall k :: 0 <= k < |r.reports| ==>
                 r.reports[k] == ConsoleError(MissingUrlMessage)
    decreases |page|
  {
    if |page| > 0 {
      MarkedGuideReports(page[1..]);
    }
  }

  /**
   * One key-down event on a page. The page keeps its elements and their
   * order; only the overlays of elements carrying the selected class change.
   */
  function KeyDown(page: seq<Host>, e: KeyEvent): (r: PageStep)
    ensures Dispatch(Signature(e)) == NoAction ==> r == PageStep(page, [])
    ensures r.PageStep? ==> |r.hosts| == |page|
    ensures r.PageStep? && Dispatch(Signature(e)) == GridToggle ==>
      forall i :: 0 <= i < |page| ==>
        && r.hosts[i] == page[i].(grid := r.hosts[i].grid)
        && (page[i].hasGrid ==>
              && Toggle(page[i].grid, GridBuild(page[i].gridInput)).Step?
              && r.hosts[i].grid == Toggle(page[i].grid, GridBuild(page[i].gridInput)).state)
        && (!page[i].hasGrid ==> r.hosts[i] == page[i])
    ensures Dispatch(Signature(e)) == GridToggle ==>
      (r.PageHung? <==> exists i :: 0 <= i < |page| && page[i].hasGrid && page[i].grid.Absent?
                                    && BuildGrid(page[i].gridInput) == Failure(Diverges))
    ensures r.PageStep? && Dispatch(Signature(e)) == GridToggle ==>
      && |r.reports| == MarkedGridRejections(page)
      && forall k :: 0 <= k < |r.reports| ==> r.reports[k] == ConsoleError(GridConfigMessage)
    ensures Dispatch(Signature(e)) == GuideToggle ==>
      && r.PageStep?
      && forall i :: 0 <= i < |page| ==>
        && r.hosts[i] == page[i].(guide := r.hosts[i].guide)
        && (page[i].hasGuide ==>
              r.hosts[i].guide == Toggle(page[i].guide, BuildGuide(page[i].guideUrl)).state)
        && (!page[i].hasGuide ==> r.hosts[i] == page[i])
    ensures Dispatch(Signature(e)) == GuideToggle ==>
      && |r.reports| == MarkedGuideRejections(page)
      && forall k :: 0 <= k < |r.reports| ==> r.reports[k] == ConsoleError(MissingUrlMessage)
  {
    match Dispatch(Signature(e))
    case GridToggle => MarkedGridReports(page); EachHost(page, GridIfMarked)
    case GuideToggle => MarkedGuideReports(page); EachHost(page, GuideIfMarked)
    case NoAction => PageStep(page, [])
  }

  /**
   * Pressing Shift+Ctrl+G on a page toggles the grid of each `has-grid`
   * element and touches nothing else; any guide stays as it was.
   */
  lemma GridHotkeyTogglesMarkedGrids(page: seq<Host>, e: KeyEvent)
    requires e.shiftKey && e.ctrlKey && !e.altKey && KeyCodeOf(e) == KeyG
    requires KeyDown(page, e).PageStep?
    ensures var r := KeyDown(page, e);
            forall i :: 0 <= i < |page| ==>
              && r.hosts[i].guide == page[i].guide
              && (page[i].hasGrid ==>
                    && Toggle(page[i].grid, GridBuild(page[i].gridInput)).Step?
                    && r.hosts[i].grid == Toggle(page[i].grid, GridBuild(page[i].gridInput)).state)
              && (!page[i].hasGrid ==> r.hosts[i] == page[i])
    ensures var r := KeyDown(page, e);
            && |r.reports| == MarkedGridRejections(page)
            && forall k :: 0 <= k < |r.reports| ==> r.reports[k] == ConsoleError(GridConfigMessage)
  {
    DispatchOfEvent(e);
  }

  /**
   * Shift+Ctrl+G fails to return exactly when some `has-grid` element has no
   * grid yet and its unit loop or its baseline loop never ends; otherwise it
   * completes.
   */
  lemma GridHotkeyHangsOnlyOnDivergence(page: seq<Host>, e: KeyEvent)
    requires e.shiftKey && e.ctrlKey && !e.altKey && KeyCodeOf(e) == KeyG
    ensures KeyDown(page, e).PageHung?
            <==> exists i :: 0 <= i < |page| && page[i].hasGrid && page[i].grid.Absent?
                             && BuildGrid(page[i].gridInput) == Failure(Diverges)
  {
    DispatchOfEvent(e);
  }

  /** Pressing Shift+Ctrl+Alt+G toggles the guide of each `has-guide` element; grids stay. */
  lemma GuideHotkeyTogglesMarkedGuides(page: seq<Host>, e: KeyEvent)
    requires e.shiftKey && e.ctrlKey && e.altKey && KeyCodeOf(e) == KeyG
    ensures var r := KeyDown(page, e);
            && r.PageStep?
            && forall i :: 0 <= i < |page| ==>
              && r.hosts[i].grid == page[i].grid
              && (page[i].hasGuide ==>
              r.hosts[i].guide == Toggle(page[i].guide, BuildGuide(page[i].guideUrl)).state)
              && (!page[i].hasGuide ==> r.hosts[i] == page[i])
    ensures var r := KeyDown(page, e);
            && |r.reports| == MarkedGuideRejections(page)
            && forall k :: 0 <= k < |r.reports| ==> r.reports[k] == ConsoleError(MissingUrlMessage)
  {
    DispatchOfEvent(e);
  }

  /** Any other key event leaves the page as it is and reports nothing. */
  lemma OtherKeysDoNothing(page: seq<Host>, e: KeyEvent)
    requires !(e.shiftKey && e.ctrlKey && KeyCodeOf(e) == KeyG)
    ensures KeyDown(page, e) == PageStep(page, [])
  {
    DispatchOfEvent(e);
  }
}

=== FILE: key_signature.dfy ===
/**
 * The canonical string signature of a keyboard event: the active modifiers
 * `shift`, `ctrl`, `alt` in that fixed order, then the key code, joined by `+`
 * (for example `shift+alt+26`, or just `71` with no modifiers).
 */
module KeySignature {
  import opened Wrappers
  import opened Decimal

  /**
   * The fields of a key event the signature reads. A `keyCode` of 0 stands
   * both for a zero and for a missing key code: either is falsy in JavaScript.
   */
  datatype KeyEvent = KeyEvent(shiftKey: bool, ctrlKey: bool, altKey: bool, keyCode: nat, which: nat)

  /** What a signature records: three modifier flags and one key code. */
  datatype Chord = Chord(shift: bool, ctrl: bool, alt: bool, code: nat)

  /** The key code, falling back to `which` when `keyCode` is falsy. */
  function KeyCodeOf(e: KeyEvent): nat {
    if e.keyCode != 0 then e.keyCode else e.which
  }

  function ChordOf(e: KeyEvent): Chord {
    Chord(e.shiftKey, e.ctrlKey, e.altKey, KeyCodeOf(e))
  }

  /** The modifier names pushed onto the signature, in push order. */
  function ModifierTokens(c: Chord): seq<string> {
    (if c.shift then ["shift"] else [])
    + (if c.ctrl then ["ctrl"] else [])
    + (if c.alt then ["alt"] else [])
  }

  /** Array join with `+` as separator. */
  function Join(parts: seq<string>): string
    decreases |parts|
  {
    if |parts| == 0 then ""
    else if |parts| == 1 then parts[0]
    else parts[0] + "+" + Join(parts[1..])
  }

  /** Every part followed by a `+`. */
  function Terminated(parts: seq<string>): string
    decreases |parts|
  {
    if |parts| == 0 then "" else parts[0] + "+" + Terminated(parts[1..])
  }

  /** The string the signature of a chord is. */
  function Encode(c: Chord): string {
    Join(ModifierTokens(c) + [NatToString(c.code)])
  }

  /** The signature of a key event. */
  function Signature(e: KeyEvent): (r: string)
    ensures Parse(r) == Some(ChordOf(e))
  {
    ParseEncode(ChordOf(e));
    Encode(ChordOf(e))
  }

  /** `t` when `present`, the empty string otherwise. */
  function Token(present: bool, t: string): string {
    if present then t else ""
  }

  /** Removes `t` from the front of `s` when it is there, and says whether it was. */
  function StripToken(s: string, t: string): (bool, string) {
    if t <= s then (true, s[|t|..]) else (false, s)
  }

  /** Reads a signature back into its chord; fails on anything `Encode` cannot produce. */
  function Parse(s: string): Option<Chord> {
    var p1 := StripToken(s, "shift+");
    var p2 := StripToken(p1.1, "ctrl+");
    var p3 := StripToken(p2.1, "alt+");
    if Canonical(p3.1) then Some(Chord(p1.0, p2.0, p3.0, StringToNat(p3.1))) else None
  }

  lemma {:induction false} JoinSnoc(parts: seq<string>, last: string)
    ensures Join(parts + [last]) == Terminated(parts) + last
    decreases |parts|
  {
    if |parts| > 0 {
      JoinSnoc(parts[1..], last);
      assert (parts + [last])[1..] == parts[1..] + [last];
    }
  }

  lemma TerminatedModifiers(c: Chord)
    ensures Terminated(ModifierTokens(c))
            == Token(c.shift, "shift+") + Token(c.ctrl, "ctrl+") + Token(c.alt, "alt+")
  {
    var a := if c.alt then ["alt"] else [];
    var b := (if c.ctrl then ["ctrl"] else []) + a;
    assert Terminated(a) == Token(c.alt, "alt+");
    assert Terminated(b) == Token(c.ctrl, "ctrl+") + Token(c.alt, "alt+") by {
      if c.ctrl { assert b[1..] == a; }
    }
    var m := ModifierTokens(c);
    assert m == (if c.shift then ["shift"] else []) + b;
    if c.shift { assert m[1..] == b; }
  }

  /**
   * The signature is the present modifiers, each followed by `+`, in the
   * order shift, ctrl, alt, and then the decimal key code.
   */
  lemma EncodeShape(c: Chord)
    ensures Encode(c)
            == Token(c.shift, "shift+") + Token(c.ctrl, "ctrl+") + Token(c.alt, "alt+")
               + NatToString(c.code)
  {
    JoinSnoc(ModifierTokens(c), NatToString(c.code));
    TerminatedModifiers(c);
  }

  lemma StripTokenOf(present: bool, t: string, rest: string)
    requires |t| >= 1 && |rest| >= 1
    requires !present ==> rest[0] != t[0]
    ensures StripToken(Token(present, t) + rest, t) == (present, rest)
  {
    var s := Token(present, t) + rest;
    if present {
      assert s[..|t|] == t;
      assert s[|t|..] == rest;
    } else {
      assert s == rest;
      assert !(t <= s);
    }
  }

  /** Whatever `StripToken` removes, putting it back gives the original string. */
  lemma StripTokenSplits(s: string, t: string)
    ensures s == Token(StripToken(s, t).0, t) + StripToken(s, t).1
  {
    if t <= s {
      assert s == s[..|t|] + s[|t|..];
    }
  }

  /** Parsing a signature recovers the chord it was made from. */
  lemma ParseEncode(c: Chord)
    ensures Parse(Encode(c)) == Some(c)
  {
    var d := NatToString(c.code);
    var s3 := d;
    var s2 := Token(c.alt, "alt+") + s3;
    var s1 := Token(c.ctrl, "ctrl+") + s2;
    var s := Token(c.shift, "shift+") + s1;
    EncodeShape(c);
    assert Encode(c) == s;
    StripTokenOf(c.shift, "shift+", s1);
    StripTokenOf(c.ctrl, "ctrl+", s2);
    StripTokenOf(c.alt, "alt+", s3);
    StringToNatOfNatToString(c.code);
  }

  /** The three stripped tokens and the remainder put back together give the string. */
  lemma StripsReassemble(s: string)
    ensures var p1 := StripToken(s, "shift+");
            var p2 := StripToken(p1.1, "ctrl+");
            var p3 := StripToken(p2.1, "alt+");
            s == Token(p1.0, "shift+") + (Token(p2.0, "ctrl+") + (Token(p3.0, "alt+") + p3.1))
  {
    var p1 := StripToken(s, "shift+");
    var p2 := StripToken(p1.1, "ctrl+");
    StripTokenSplits(s, "shift+");
    StripTokenSplits(p1.1, "ctrl+");
    StripTokenSplits(p2.1, "alt+");
  }

  lemma Reassociate(a: string, b: string, d: string, e: string)
    ensures a + b + d + e == a + (b + (d + e))
  {}

  /** Every string that parses is exactly the signature of the chord it parses to. */
  lemma EncodeParse(s: string, c: Chord)
    requires Parse(s) == Some(c)
    ensures Encode(c) == s
  {
    var p1 := StripToken(s, "shift+");
    var p2 := StripToken(p1.1, "ctrl+");
    var p3 := StripToken(p2.1, "alt+");
    var digits := p3.1;
    assert Canonical(digits) && c == Chord(p1.0, p2.0, p3.0, StringToNat(digits));
    StripsReassemble(s);
    NatToStringOfStringToNat(digits);
    EncodeShape(c);
    Reassociate(Token(c.shift, "shift+"), Token(c.ctrl, "ctrl+"), Token(c.alt, "alt+"), digits);
  }

  /** Two chords have the same signature only if they are the same chord. */
  lemma EncodeInjective(c: Chord, d: Chord)
    requires Encode(c) == Encode(d)
    ensures c == d
  {
    ParseEncode(c);
    ParseEncode(d);
  }

  /**
   * Two events share a signature exactly when they agree on the three
   * modifiers and on the effective key code.
   */
  lemma SameSignature(e: KeyEvent, f: KeyEvent)
    ensures Signature(e) == Signature(f)
            <==> e.shiftKey == f.shiftKey && e.ctrlKey == f.ctrlKey && e.altKey == f.altKey
                 && KeyCodeOf(e) == KeyCodeOf(f)
  {
    if Signature(e) == Signature(f) {
      EncodeInjective(ChordOf(e), ChordOf(f));
    }
  }

  /** The documented example and the no-modifier case. */
  lemma SignatureExamples()
    ensures Signature(KeyEvent(true, false, true, 26, 0)) == "shift+alt+26"
    ensures Signature(KeyEvent(false, false, false, 71, 0)) == "71"
    ensures Signature(KeyEvent(true, true, false, 0, 71)) == "shift+ctrl+71"
  {
    assert NatToString(26) == "26" by {
      assert NatToString(2) == "2";
    }
    assert NatToString(71) == "71" by {
      assert NatToString(7) == "7";
    }
    assert ChordOf(KeyEvent(true, false, true, 26, 0)) == Chord(true, false, true, 26);
    assert Encode(Chord(true, false, true, 26)) == "shift+alt+26" by {
      EncodeShape(Chord(true, false, true, 26));
      assert Token(true, "shift+") + Token(false, "ctrl+") + Token(true, "alt+") + "26"
             == "shift+alt+26";
    }
    assert ChordOf(KeyEvent(false, false, false, 71, 0)) == Chord(false, false, false, 71);
    assert Encode(Chord(false, false, false, 71)) == "71" by {
      EncodeShape(Chord(false, false, false, 71));
      assert Token(false, "shift+") + Token(false, "ctrl+") + Token(false, "alt+") + "71" == "71";
    }
    assert ChordOf(KeyEvent(true, true, false, 0, 71)) == Chord(true, true, false, 71);
    assert Encode(Chord(true, true, false, 71)) == "shift+ctrl+71" by {
      EncodeShape(Chord(true, true, false, 71));
      assert Token(true, "shift+") + Token(true, "ctrl+") + Token(false, "alt+") + "71"
             == "shift+ctrl+71";
    }
  }
}

=== FILE: overlay.dfy ===
/**
 * The per-element life cycle shared by the grid and the guide overlays: an
 * overlay is built lazily on the first toggle, built hidden and then toggled
 * (so it ends up shown), and afterwards each toggle only flips its visibility.
 */
module Overlay {

  /** One `console.error` call, carrying its message. */
  datatype Report = ConsoleError(message: string)

  /** The overlay of one host element; a built overlay keeps its content. */
  datatype State<L> = Absent | Hidden(content: L) | Shown(content: L)

  /**
   * What building an overlay for an element yields: the overlay, one console
   * error report (construction aborted), or a build loop that never returns.
   */
  datatype Build<L, E> = Built(overlay: L) | Rejected(report: E) | Hangs

  /** The outcome of one toggle call on one element. */
  datatype Step<L, E> = Step(state: State<L>, reports: seq<E>) | Hung

  /** jQuery `toggle()` on the overlay node: hidden becomes shown and back. */
  function Flip<L>(s: State<L>): State<L> {
    match s
    case Absent => Absent
    case Hidden(c) => Shown(c)
    case Shown(c) => Hidden(c)
  }

  /**
   * One toggle call. `build` is what constructing the overlay would give; it
   * is consulted only when no overlay exists yet.
   */
  function Toggle<L, E>(s: State<L>, build: Build<L, E>): (r: Step<L, E>)
    ensures s.Absent? && build.Built? ==> r == Step(Shown(build.overlay), [])
    ensures s.Absent? && build.Rejected? ==> r == Step(Absent, [build.report])
    ensures s.Absent? && build.Hangs? ==> r.Hung?
    ensures !s.Absent? ==> r.Step? && r.reports == [] && !r.state.Absent?
                           && r.state.content == s.content
                           && (r.state.Shown? <==> s.Hidden?)
  {
    match s
    case Absent =>
      (match build
       case Built(l) => Step(Flip(Hidden(l)), [])
       case Rejected(e) => Step(Absent, [e])
       case Hangs => Hung)
    case _ => Step(Flip(s), [])
  }

  /** Successive toggle calls on one element; `builds[i]` is what call i would build. */
  function Toggles<L, E>(s: State<L>, builds: seq<Build<L, E>>): Step<L, E>
    decreases |builds|
  {
    if |builds| == 0 then Step(s, [])
    else
      match Toggle(s, builds[0])
      case Hung => Hung
      case Step(s1, r1) =>
        match Toggles(s1, builds[1..])
        case Hung => Hung
        case Step(s2, r2) => Step(s2, r1 + r2)
  }

  /**
   * Once an overlay exists, later toggles never build a second one and never
   * report: they only alternate its visibility, whatever the configuration.
   */
  lemma {:induction false} ExistingOverlayOnlyFlips<L, E>(s: State<L>, builds: seq<Build<L, E>>)
    requires !s.Absent?
    ensures Toggles(s, builds) == Step(if |builds| % 2 == 0 then s else Flip(s), [])
    decreases |builds|
  {
    if |builds| > 0 {
      ExistingOverlayOnlyFlips(Flip(s), builds[1..]);
    }
  }

  /**
   * From no overlay and a valid configuration: the first toggle shows the new
   * overlay, the second hides it, the third shows it again, and so on.
   */
  lemma FirstBuildThenAlternates<L, E>(l: L, builds: seq<Build<L, E>>)
    requires |builds| >= 1 && builds[0] == Built(l)
    ensures Toggles(Absent, builds)
            == Step(if |builds| % 2 == 1 then Shown(l) else Hidden(l), [])
  {
    var rest := builds[1..];
    assert Toggle(Absent, builds[0]) == Step(Shown(l), []);
    ExistingOverlayOnlyFlips(Shown(l), rest);
    var after := if |rest| % 2 == 0 then Shown(l) else Hidden(l);
    assert Toggles(Shown(l), rest) == Step(after, []);
    var none: seq<E> := [];
    assert none + none == none;
  }

  /**
   * While the configuration stays invalid, the element keeps no overlay and
   * every toggle call reports its error again.
   */
  lemma {:induction false} InvalidConfigReportsEveryTime<L, E>(builds: seq<Build<L, E>>)
    requires forall i :: 0 <= i < |builds| ==> builds[i].Rejected?
    ensures Toggles(Absent, builds)
            == Step(Absent, seq(|builds|, i requires 0 <= i < |builds| => builds[i].report))
    decreases |builds|
  {
    if |builds| > 0 {
      InvalidConfigReportsEveryTime(builds[1..]);
      var rest := seq(|builds| - 1, i requires 0 <= i < |builds| - 1 => builds[1..][i].report);
      assert [builds[0].report] + rest
             == seq(|builds|, i requires 0 <= i < |builds| => builds[i].report);
    }
  }
}

=== FILE: wrappers.dfy ===
/** The optional-value and value-or-error datatypes the other modules share. */
module Wrappers {

  /** An optional value; models a JavaScript value that may be missing or NaN. */
  datatype Option<+T> = None | Some(value: T) {

    /** The wrapped value, or `default` when there is none. */
    function GetOr(default: T): (r: T)
      ensures Some? ==> r == value
      ensures None? ==> r == default
    {
      match this
      case Some(v) => v
      case None => default
    }
  }

  /** Either a value or an error. */
  datatype Result<+R, +E> = Success(value: R) | Failure(error: E)
}
